=== FILE: README.md ===
# c7n-guardian decision logic in Dafny

This project models the decision logic of `c7n-guardian`, a command-line tool that enables, disables and reports on a cloud provider's threat-detection service across a fleet of accounts linked to one master account. The vendor's responses are plain input values: the master's member list, a member account's invitations, and an account's detector ids. The requests the commands send back are a trace of `Call` values, and an `Outcome` pairs that trace with the exception that ended the command, if any. "Raises before `create_members`" therefore means the outcome carries an error and its trace holds no `CreateMembers` request.

Modules, leaf to root:

- `Wrappers`: `Option` (a missing key or `None`) and `Result` (a value or the raised exception).
- `Lex`: Python's ordering of `str` values. The timestamps are strings and are sorted with it. Proved reflexive, total, transitive and antisymmetric.
- `StableSort`: `list.sort(key=…, reverse=…)` as an insertion sort. It is proved to be the stable sort: a permutation, ordered by key, and for every key the elements that carry it keep their input order.
- `Accounts`: configuration entries, member records, invitations, the command errors, and master resolution (`get_master_info`).
- `Detector`: `get_or_create_detector_id` over an account's list of detector ids.
- `Membership`: the differ of `enable` (extant, suspended and new members) and the member lookup of `report`.
- `Calls`: the vendor requests as values.
- `Enable`: the `enable` command up to submitting the accept tasks.
- `Invitations`: `enable_account`, which keeps the master's invitations, sorts them by `InvitedAt` and accepts the last one.
- `AcceptPhase`: the accept tasks run one after another, with per-task failure isolation.
- `Disable`: the `disable` command.
- `Report`: the `report` command's rows and their ordering.

Each command takes two account lists. `config` is the full configuration, where the master is resolved. `accounts` (or `targets`) is the selection that remains after tag and account filtering. `guardian_init` passes the master's name to that filtering as an excluded account (cli.py:310), so the selection normally holds no master entry already. The master test in `Enable.AcceptTargets` (cli.py:247) is a second guard, and the model proves it holds for any selection.

Behaviour of the code a reader may not expect:

- `enable` returns early whenever there are no new members. It does not wait for there also being no suspended members.
- A non-member report row carries `invited=None`, not `joined=None`.
- In `dissociate` mode the per-account loop always runs after the bulk disassociation.
- In `suspend` mode, `--delete-detector` is silently ignored.
- The report keeps every selected account. Nothing in `report` itself excludes the master.

## Model

| member | source | states |
|---|---|---|
| Accounts.GetMasterInfo | tools/c7n_guardian/c7n_guardian/cli.py:290-303 | The master is the first entry, in configuration order, whose name or account id equals the requested master. Lookup fails with `MasterNotFound` exactly when no entry matches. |
| Detector.GetOrCreate | tools/c7n_guardian/c7n_guardian/cli.py:282-287 | If the account has detectors, the first id is returned and the list is unchanged. Otherwise a single detector with the fresh id is created and returned. |
| Detector.GetOrCreateIdempotent | tools/c7n_guardian/c7n_guardian/cli.py:282-287 | A second resolution against the state left by the first returns the same id and creates nothing. |
| Detector.GetOrCreateCreatesAtMostOnce | tools/c7n_guardian/c7n_guardian/cli.py:284-287 | The detector list grows only from empty to one entry. |
| Membership.ExtantIds | tools/c7n_guardian/c7n_guardian/cli.py:196-197 | The extant ids are exactly the account ids in the member list, whatever their status. |
| Membership.SuspendedIds | tools/c7n_guardian/c7n_guardian/cli.py:199-204 | An id is suspended if and only if it is configured and some member record for it has status `Disabled`. |
| Membership.SuspendedWithinConfiguredAndExtant | tools/c7n_guardian/c7n_guardian/cli.py:196-204 | The suspended set is a subset of both the configured ids and the extant ids. |
| Membership.NewMembers | tools/c7n_guardian/c7n_guardian/cli.py:214-216 | Exactly the configured accounts not in the extant ids, each paired with its email. None of them is extant. |
| Membership.NewMembersDistributes | tools/c7n_guardian/c7n_guardian/cli.py:214-216 | The new-member list distributes over concatenation of the configuration, so it keeps configuration order. |
| Membership.SuspendedAndNewDisjoint | tools/c7n_guardian/c7n_guardian/cli.py:197-216 | No account is both resumed and created. |
| Membership.LookupMember | tools/c7n_guardian/c7n_guardian/cli.py:62-63 | The record shown for an id is the last one in the member list with that id (a later dictionary entry replaces an earlier one). There is none exactly when no record has the id. |
| Membership.LookupMemberFindsExtant | tools/c7n_guardian/c7n_guardian/cli.py:72-78 | A record is found exactly for the extant ids. |
| Enable.InviteFor | tools/c7n_guardian/c7n_guardian/cli.py:236-238 | The invite lists the created members' account ids in the same order. The welcome message is included only when one was given and it is non-empty. |
| Enable.AcceptTargets | tools/c7n_guardian/c7n_guardian/cli.py:246-249 | Every entry except the master record gets a task, so the number of accept tasks is the number of entries minus the copies of the master record. |
| Enable.AcceptTargetsDistributes | tools/c7n_guardian/c7n_guardian/cli.py:246-249 | The target filter distributes over concatenation, so the accept tasks follow configuration order. |
| Enable.AcceptTargetsCounts | tools/c7n_guardian/c7n_guardian/cli.py:246-249 | Each entry other than the master gets as many accept tasks as it has copies in the selection. |
| Enable.SubmitAll | tools/c7n_guardian/c7n_guardian/cli.py:246-249 | One accept submission per target, in order, on behalf of the master's account id. |
| Enable.EnableFor | tools/c7n_guardian/c7n_guardian/cli.py:196-225 | Suspended members are resumed first, in one request, exactly when there are any. The 1000-member ceiling is the only error, and it is raised exactly when new members exist and the prospective count exceeds 1000. With no new members, or on that error, the command stops after the resume request: that request, if any, is all it sends. |
| Enable.EnrolmentOrder | tools/c7n_guardian/c7n_guardian/cli.py:196-249 | When enrolment proceeds, the trace is exactly: the resume request if any, the creation of the new members, the invite of exactly those, then one accept task per target that `AcceptTargets` gives. No error is raised. |
| Enable.Enable | tools/c7n_guardian/c7n_guardian/cli.py:185-186 | A master missing from the configuration fails the command before any request. |
| Invitations.FromMaster | tools/c7n_guardian/c7n_guardian/cli.py:268-270 | Exactly the invitations whose account id is the master's are kept. |
| Invitations.FromMasterDistributes | tools/c7n_guardian/c7n_guardian/cli.py:268-270 | The filter distributes over concatenation, so it keeps the listing order and the copies of the master's invitations. |
| Invitations.FromMasterSingle | tools/c7n_guardian/c7n_guardian/cli.py:268-270 | A single invitation is kept exactly when the master sent it. |
| Invitations.SelectInvitation | tools/c7n_guardian/c7n_guardian/cli.py:268-277 | An invitation is chosen exactly when one from the master exists, and the chosen one is from the master. |
| Invitations.LatestIndex | tools/c7n_guardian/c7n_guardian/cli.py:271-277 | A reference scan finds the invitation with the greatest `InvitedAt`. Every later-listed invitation is strictly older. |
| Invitations.LastOfSortIsLatest | tools/c7n_guardian/c7n_guardian/cli.py:271-277 | The last element of the stable ascending sort by `InvitedAt` is the reference latest invitation. |
| Invitations.SelectInvitationIsLatest | tools/c7n_guardian/c7n_guardian/cli.py:268-277 | The accepted invitation has the greatest `InvitedAt` among the master's invitations. Among equal timestamps, it is the last one listed. |
| Invitations.EnableAccount | tools/c7n_guardian/c7n_guardian/cli.py:261-279 | An accept is sent exactly when an invitation from the master exists. It names the master and the id of the latest invitation from the master, as `SelectInvitationIsLatest` defines it. The detector is the account's first detector, or the one just created when it had none. An existing detector list is left unchanged. An account with no detector ends with exactly the created one, whether or not anything is accepted. |
| AcceptPhase.RunTask | tools/c7n_guardian/c7n_guardian/cli.py:251-279 | A task fails exactly when `enable_account` raises for the account. It is skipped exactly when no invitation from the master exists. Otherwise it sends the accept that `Invitations.EnableAccount` computes: the latest invitation from the master, on the account's first detector or on the one just created. |
| AcceptPhase.RunTaskAsWritten | tools/c7n_guardian/c7n_guardian/cli.py:272-274 | As written, a missing invitation ends the accept task as failed, never as a quiet skip. |
| AcceptPhase.MissingInvitationRaisesAsWritten | tools/c7n_guardian/c7n_guardian/cli.py:272-274 | For an account with no invitations, the code as written fails and the corrected task skips. |
| AcceptPhase.AsWrittenAgreesWhenInvited | tools/c7n_guardian/c7n_guardian/cli.py:268-279 | When the master's invitation exists or `enable_account` raises, the as-written and corrected tasks agree. |
| AcceptPhase.RunAll | tools/c7n_guardian/c7n_guardian/cli.py:244-258 | One result per non-master entry, in configuration order. Each result depends only on that account's own state. |
| AcceptPhase.FailureIsolated | tools/c7n_guardian/c7n_guardian/cli.py:251-256 | Making one account unreachable changes no other account's result, and that account's result becomes `Failed`. |
| AcceptPhase.MasterNeverProcessed | tools/c7n_guardian/c7n_guardian/cli.py:246-249 | The master runs no task, and the number of accept tasks is the number of entries minus the copies of the master record. |
| Disable.ValidModes | tools/c7n_guardian/c7n_guardian/cli.py:109-112 | The modes are valid exactly when one of `suspend`, `disable_detector` and `dissociate` is set. `delete_detector` does not count. |
| Disable.MemberActions | tools/c7n_guardian/c7n_guardian/cli.py:149-164 | Each handled account gets exactly one request per enabled flag and none for the others, all for that account. |
| Disable.MemberActionsInLoopOrder | tools/c7n_guardian/c7n_guardian/cli.py:149-164 | One account's requests come in the loop body's order: disable, then disassociate, then delete. So no kind of request is repeated. |
| Disable.DisableMembers | tools/c7n_guardian/c7n_guardian/cli.py:142-164 | The loop raises `KeyError` exactly when some entry lacks `role`, at the first such entry. |
| Disable.DisableMembersDistributes | tools/c7n_guardian/c7n_guardian/cli.py:142-164 | Over a run of entries that all have a role, the loop issues their requests and carries on with the rest. |
| Disable.DisableMembersSingle | tools/c7n_guardian/c7n_guardian/cli.py:142-164 | One entry with a role gets exactly its member-side requests and no error. |
| Disable.DisableMembersCovers | tools/c7n_guardian/c7n_guardian/cli.py:142-164 | Every entry before the first one without a role gets all of its member-side requests. |
| Disable.DisableMembersCount | tools/c7n_guardian/c7n_guardian/cli.py:142-164 | The loop issues (entries handled before the error) × (requests per account) requests. |
| Disable.HandledBeforeError | tools/c7n_guardian/c7n_guardian/cli.py:142-145 | Counts the leading entries that have a role. The entry after them is the first without one. |
| Disable.DisableMembersStaysInScope | tools/c7n_guardian/c7n_guardian/cli.py:142-164 | The loop issues only the member-side requests the flags ask for, and only for accounts it reached before the first entry without `role`. |
| Disable.Sweep | tools/c7n_guardian/c7n_guardian/cli.py:134-164 | Outside suspension: a bulk disassociation first when dissociating. The loop then fails exactly when some entry lacks `role`. Every entry before that point gets each request its flags ask for. Nothing else is sent: the request count is the bulk request plus the reached entries times the requests per account, and every later request is a flagged kind for a reached entry. |
| Disable.DisableFor | tools/c7n_guardian/c7n_guardian/cli.py:109-164 | An invalid mode count raises before any request. A master entry without `role` raises before any request. `suspend` issues one bulk stop for all selected ids and nothing per account. `dissociate` starts with a bulk disassociation followed only by member-side requests. `disable_detector` never disassociates. Any other valid mode gives exactly `Sweep`. |
| Disable.Disable | tools/c7n_guardian/c7n_guardian/cli.py:106-112 | A missing master fails first. Once the master is found, the mode error occurs exactly when the mode count is not one. Both errors come with no request sent. |
| StableSort.SortByIsStableSort | tools/c7n_guardian/c7n_guardian/cli.py:84 | The sort returns a permutation ordered by key, and elements with equal keys keep their input order. This is also true descending (`reverse=True`). |
| Report.BuildRow | tools/c7n_guardian/c7n_guardian/cli.py:66-82 | A row keeps the entry's name, id, email and profile and drops `tags`, `role` and `regions`. It is a non-member row with `updated` = now exactly when the id is not extant. Otherwise status, joined and updated come from the last member record for the id. |
| Report.BuildRows | tools/c7n_guardian/c7n_guardian/cli.py:65-83 | There is one row per entry, in order. The build fails with `MissingRole` exactly when some entry lacks `role`, naming the first such entry. |
| Report.Report | tools/c7n_guardian/c7n_guardian/cli.py:49-84 | The report fails exactly when the master is missing or some entry lacks `role`. Otherwise it has one row per selected entry. |
| Report.ReportNewestFirst | tools/c7n_guardian/c7n_guardian/cli.py:84 | The report is a permutation of the built rows, sorted by `updated` newest first. Rows with equal `updated` keep configuration order. |
| Report.NonMembersFirst | tools/c7n_guardian/c7n_guardian/cli.py:72-84 | If every member record was updated strictly before now, all non-member rows come before all member rows. |

## Left out

- The click command group, option parsing, `tabulate` printing, logging and `format_event` are presentation and I/O.
- `get_session`, `assumed_session` and `SessionFactory` are not modelled. Any exception inside `enable_account`, whether the session cannot be obtained or a later request fails, is the `Raises` account state.
- The boto client calls are not executed. Their results are inputs, and the requests are `Call` values.
- The `UnprocessedAccounts` parts of the bulk responses are not modelled. The source only logs them.
- The detector resolution that each command and each per-account step performs is not in the request traces. It is modelled once, as `Detector.GetOrCreate`, and used by `Invitations.EnableAccount`.
- The worker pool and `as_completed` are not modelled. The accept phase is a sequential map over the accounts, because its tasks share no state. The debug single-thread switch is therefore moot.
- The schema patch at lines 32-33 is not modelled. The `email` it makes required is a plain field of `Account`.
- `init` and `filter_accounts` come from `c7n_org`, which is not part of this model. Every command takes the selected accounts as an input. The model does not assume that the master has been filtered out of the selection (cli.py:310).
- `datetime.now()`: the report takes one `now` string. The source reads the clock afresh for each non-member row, so after its newest-first sort its non-member rows usually come out in reverse configuration order. The model's single `now` keeps them in configuration order.
- The `ClientError`/`InvalidInputException` handling at lines 159-161 is not modelled. Every per-account disable request is taken to succeed, so the skipped `delete_detector` after a benign disassociation error is not modelled.
- Configuration entries carry only the keys the code reads. Other keys would be copied into report rows unchanged.
- An `account_id` written as a YAML integer would never equal the master name string. The model treats every id as a string.
- The `role` value is modelled only by its presence. Nothing here depends on it being empty or not.
- tools/c7n_gcp/tests/test_mu_gcp.py and tools/c7n_azure/tests/common.py are test fixtures with no logic of the tool.

## Findings

| source | as written | input that shows it | evidently intended | confidence | as-written member | corrected member |
|---|---|---|---|---|---|---|
| tools/c7n_guardian/c7n_guardian/cli.py:273 | The warning text is applied to `(account['name'])` as if it were a function. That raises `TypeError`, so the accept task ends as an error and is logged as a processing failure. | Any member account whose invitation list holds no invitation from the master, for example an empty list. | Log a warning naming the account and return without accepting. | high; not executed | AcceptPhase.RunTaskAsWritten | AcceptPhase.RunTask |

=== FILE: accept.dfy ===
/**
 * The accept phase of `enable`, run one task after another: each non-master
 * account runs `enable_account`, and a task that raises is recorded as
 * failed without affecting the others.
 */
module AcceptPhase {
  import opened Wrappers
  import opened Accounts
  import opened Invitations
  import Enable

  /**
   * What a member account answers: its detector list, the id a created
   * detector would get and its invitations; or an account whose
   * `enable_account` raises, whether obtaining the session or a later
   * request fails.
   */
  datatype AccountState =
    | Reachable(detectors: seq<string>, freshDetectorId: string, invitations: seq<Invitation>)
    | Raises

  /** How one task ended: accepted, nothing to accept, or raised. */
  datatype TaskResult = Enabled(request: AcceptRequest) | NoInvitation | Failed

  /** One `enable_account` task for the account in state `st`. */
  function RunTask(masterId: string, st: AccountState): (r: TaskResult)
    ensures r.Failed? <==> st.Raises?
    ensures r.NoInvitation? <==>
      st.Reachable? && forall i :: i in st.invitations ==> i.accountId != masterId
    ensures r.Enabled? ==> r.request.masterId == masterId
    // the request is the one `enable_account` sends: the latest master invitation, on the resolved detector
    ensures r.Enabled? ==>
      st.Reachable? &&
      EnableAccount(masterId, st.detectors, st.freshDetectorId, st.invitations).accepted == Some(r.request)
  {
    match st
    case Raises => Failed
    case Reachable(detectors, freshId, invitations) =>
      var outcome := EnableAccount(masterId, detectors, freshId, invitations);
      if outcome.accepted.Some? then Enabled(outcome.accepted.value) else NoInvitation
  }

  /**
   * One task exactly as the source writes it: the warning for a missing
   * invitation applies a string to an argument, which raises `TypeError`,
   * so that branch ends the accept task as failed rather than as a quiet skip.
   */
  function RunTaskAsWritten(masterId: string, st: AccountState): (r: TaskResult)
    ensures r.Failed? <==>
      st.Raises? || forall i :: i in st.invitations ==> i.accountId != masterId
    ensures !r.NoInvitation?
  {
    match st
    case Raises => Failed
    case Reachable(detectors, freshId, invitations) =>
      var outcome := EnableAccount(masterId, detectors, freshId, invitations);
      if outcome.accepted.Some? then Enabled(outcome.accepted.value) else Failed
  }

  /**
   * The discrepancy: a reachable account with no invitation from the master
   * is reported as an error by the code as written, and skipped by the
   * corrected task. Neither accepts anything.
   */
  lemma MissingInvitationRaisesAsWritten(masterId: string, detectors: seq<string>, freshId: string)
    ensures RunTaskAsWritten(masterId, Reachable(detectors, freshId, [])) == Failed
    ensures RunTask(masterId, Reachable(detectors, freshId, [])) == NoInvitation
  {
  }

  /** Away from the malformed warning, the accept task as written and the corrected one agree. */
  lemma AsWrittenAgreesWhenInvited(masterId: string, st: AccountState)
    requires st.Reachable? ==> exists i :: i in st.invitations && i.accountId == masterId
    ensures RunTaskAsWritten(masterId, st) == RunTask(masterId, st)
  {
  }

  /** The state of the account with id `id`; an account absent from `states` cannot be reached. */
  function StateOf(states: map<string, AccountState>, id: string): AccountState
  {
    if id in states then states[id] else Raises
  }

  /** The tasks' results, one per account other than the master, in configuration order. */
  function RunAll(accounts: seq<Account>, master: Account, states: map<string, AccountState>)
    : (r: seq<(Account, TaskResult)>)
    ensures |r| == |Enable.AcceptTargets(accounts, master)|
    ensures forall i :: 0 <= i < |r| ==>
      r[i].0 == Enable.AcceptTargets(accounts, master)[i] &&
      r[i].1 == RunTask(master.accountId, StateOf(states, r[i].0.accountId))
  {
    var targets := Enable.AcceptTargets(accounts, master);
    seq(|targets|, i requires 0 <= i < |targets| =>
      (targets[i], RunTask(master.accountId, StateOf(states, targets[i].accountId))))
  }

  /**
   * A task's failure is isolated: making one account unreachable changes no
   * other account's result, and that account's result becomes `Failed`.
   */
  lemma FailureIsolated(accounts: seq<Account>, master: Account, states: map<string, AccountState>,
                        broken: string)
    ensures var before := RunAll(accounts, master, states);
      var after := RunAll(accounts, master, states[broken := Raises]);
      |after| == |before| &&
      forall i :: 0 <= i < |before| ==>
        after[i].0 == before[i].0 &&
        (before[i].0.accountId != broken ==> after[i].1 == before[i].1) &&
        (before[i].0.accountId == broken ==> after[i].1.Failed?)
  {
  }

  /** The master never runs a task, and every other account runs exactly one per configuration entry. */
  lemma MasterNeverProcessed(accounts: seq<Account>, master: Account, states: map<string, AccountState>)
    ensures forall i :: 0 <= i < |RunAll(accounts, master, states)| ==>
      RunAll(accounts, master, states)[i].0 != master
    ensures |RunAll(accounts, master, states)| == |accounts| - multiset(accounts)[master]
  {
    var targets := Enable.AcceptTargets(accounts, master);
    forall i | 0 <= i < |targets|
      ensures targets[i] != master
    {
      assert targets[i] in targets;
    }
  }
}

=== FILE: accounts.dfy ===
/**
 * Account configuration records, the vendor's member and invitation records,
 * and master resolution (`get_master_info`).
 */
module Accounts {
  import opened Wrappers

  /**
   * One entry of the accounts configuration. `role` and `regions` are
   * `None` when the key is absent from the entry; `email` is required by the
   * configuration schema this tool extends.
   */
  datatype Account = Account(
    name: string,
    accountId: string,
    email: string,
    role: Option<string>,
    profile: Option<string>,
    tags: seq<string>,
    regions: Option<seq<string>>)

  /** One record of the master detector's member list. */
  datatype Member = Member(
    accountId: string,
    relationshipStatus: string,
    invitedAt: string,
    updatedAt: string)

  /** One invitation listed in a member account. */
  datatype Invitation = Invitation(
    accountId: string,
    invitationId: string,
    invitedAt: string)

  /** The exceptions the commands raise. */
  datatype GuardianError =
    | MasterNotFound(master: string)        // ValueError: master not in the accounts config
    | InvalidDisableModes                   // ValueError: not exactly one disable mode
    | MemberLimitExceeded(prospective: nat) // ValueError: more than 1000 members per master
    | MissingRole(account: string)          // KeyError: the entry has no `role` key

  /** An entry designates the master when its name or its account id is `master`. */
  predicate IsMaster(a: Account, master: string)
  {
    a.name == master || a.accountId == master
  }

  /** Entry `i` designates `master` and no earlier entry does. */
  predicate FirstMasterAt(accounts: seq<Account>, master: string, i: int)
  {
    && 0 <= i < |accounts|
    && IsMaster(accounts[i], master)
    && forall j :: 0 <= j < i ==> !IsMaster(accounts[j], master)
  }

  /** Entry `i` is the first without a `role` key: the first where a
   * subscript on `role` raises `KeyError`. */
  predicate FirstWithoutRoleAt(accounts: seq<Account>, i: int)
  {
    && 0 <= i < |accounts|
    && accounts[i].role.None?
    && forall j :: 0 <= j < i ==> accounts[j].role.Some?
  }

  /**
   * The first entry, in configuration order, that designates `master`;
   * `MasterNotFound` when none does.
   */
  function GetMasterInfo(accounts: seq<Account>, master: string): (r: Result<Account, GuardianError>)
    ensures r.Failure? <==> forall i :: 0 <= i < |accounts| ==> !IsMaster(accounts[i], master)
    ensures r.Failure? ==> r.error == MasterNotFound(master)
    ensures r.Success? ==> exists i :: FirstMasterAt(accounts, master, i) && accounts[i] == r.value
  {
    if |accounts| == 0 then Failure(MasterNotFound(master))
    else if IsMaster(accounts[0], master) then Success(accounts[0])
    else
      var r := GetMasterInfo(accounts[1..], master);
      assert r.Success? ==> exists i :: FirstMasterAt(accounts, master, i) && accounts[i] == r.value by {
        if r.Success? {
          var i :| FirstMasterAt(accounts[1..], master, i) && accounts[1..][i] == r.value;
          forall j | 0 <= j < i + 1
            ensures !IsMaster(accounts[j], master)
          {
            if j > 0 {
              assert accounts[j] == accounts[1..][j - 1];
            }
          }
          assert FirstMasterAt(accounts, master, i + 1);
        }
      }
      r
  }
}

=== FILE: calls.dfy ===
/**
 * The vendor requests the commands issue, as values. A command's effect is
 * the sequence of requests it issues, followed by the exception it raises,
 * if any.
 */
module Calls {
  import opened Wrappers
  import opened Accounts
  import opened Membership

  /** The `invite_members` request: `message` is the optional welcome text. */
  datatype InviteRequest = InviteRequest(accountIds: seq<string>, message: Option<string>)

  datatype Call =
    | StartMonitoring(resumed: set<string>)          // resume suspended members (master)
    | CreateMembers(details: seq<MemberDetail>)     // enrol new members (master)
    | InviteMembers(request: InviteRequest)         // invite the created members (master)
    | SubmitAccept(account: Account, masterId: string) // one `enable_account` task
    | StopMonitoring(ids: seq<string>)              // suspend members (master)
    | DisassociateMembers(ids: seq<string>)         // drop members (master)
    | DisableDetector(accountId: string)            // `update_detector(Enable=False)` (member)
    | DisassociateFromMaster(accountId: string)     // leave the master (member)
    | DeleteDetector(accountId: string)             // delete the detector (member)

  /** The requests a command issued, in order, and the exception that ended it, if any. */
  datatype Outcome = Outcome(calls: seq<Call>, error: Option<GuardianError>)

  /** The account ids of the entries, in configuration order. */
  function AccountIds(accounts: seq<Account>): (r: seq<string>)
    ensures |r| == |accounts|
    ensures forall i :: 0 <= i < |accounts| ==> r[i] == accounts[i].accountId
  {
    seq(|accounts|, i requires 0 <= i < |accounts| => accounts[i].accountId)
  }
}

=== FILE: detector.dfy ===
/**
 * `get_or_create_detector_id`: an account's detector list is the only state;
 * listing it and creating a detector are the two vendor calls.
 */
module Detector {

  /**
   * The detector id in use and the account's detector list afterwards.
   * `freshId` is the id the vendor assigns if a detector has to be created.
   */
  datatype Resolution = Resolution(detectorId: string, detectors: seq<string>)

  function GetOrCreate(detectors: seq<string>, freshId: string): (r: Resolution)
    ensures r.detectorId in r.detectors
    ensures r.detectors[0] == r.detectorId
    ensures |detectors| > 0 ==> r.detectors == detectors
    ensures |detectors| == 0 ==> r.detectors == [freshId]
  {
    if |detectors| > 0 then Resolution(detectors[0], detectors)
    else Resolution(freshId, [freshId])
  }

  /** A second resolution against the state the first one left returns the same id and creates nothing. */
  lemma GetOrCreateIdempotent(detectors: seq<string>, freshId: string, laterFreshId: string)
    ensures GetOrCreate(GetOrCreate(detectors, freshId).detectors, laterFreshId)
         == GetOrCreate(detectors, freshId)
  {
  }

  /** At most one detector is ever created, and only when the account had none. */
  lemma GetOrCreateCreatesAtMostOnce(detectors: seq<string>, freshId: string)
    ensures |GetOrCreate(detectors, freshId).detectors| == if |detectors| == 0 then 1 else |detectors|
  {
  }
}

=== FILE: disable.dfy ===
/**
 * The `disable` command: exactly one of three modes, checked before any
 * request; then a bulk suspension at the master, or a bulk disassociation
 * followed by the per-account loop, or the per-account loop alone.
 */
module Disable {
  import opened Wrappers
  import opened Accounts
  import opened Calls

  /** The command's flags; `deleteDetector` modifies the per-account loop and is not a mode. */
  datatype DisableFlags = DisableFlags(
    suspend: bool,
    disableDetector: bool,
    deleteDetector: bool,
    dissociate: bool)

  function Bit(b: bool): nat
  {
    if b then 1 else 0
  }

  /** How many of the three mode flags are set. */
  function ModeCount(f: DisableFlags): nat
  {
    Bit(f.suspend) + Bit(f.disableDetector) + Bit(f.dissociate)
  }

  /** The modes are valid exactly when one of the three is set, whatever `deleteDetector` says. */
  lemma ValidModes(f: DisableFlags)
    ensures ModeCount(f) == 1 <==>
      (f.suspend && !f.disableDetector && !f.dissociate) ||
      (!f.suspend && f.disableDetector && !f.dissociate) ||
      (!f.suspend && !f.disableDetector && f.dissociate)
    ensures ModeCount(f) == ModeCount(f.(deleteDetector := !f.deleteDetector))
  {
  }

  /** How many member-side requests the loop issues per account. */
  function PerAccount(f: DisableFlags): nat
  {
    Bit(f.disableDetector) + Bit(f.dissociate) + Bit(f.deleteDetector)
  }

  /** A request issued from inside a member account. */
  predicate MemberSide(c: Call)
  {
    c.DisableDetector? || c.DisassociateFromMaster? || c.DeleteDetector?
  }

  /** A member-side request of a kind the flags ask for. */
  predicate AllowedBy(c: Call, f: DisableFlags)
  {
    && MemberSide(c)
    && (c.DisableDetector? ==> f.disableDetector)
    && (c.DisassociateFromMaster? ==> f.dissociate)
    && (c.DeleteDetector? ==> f.deleteDetector)
  }

  /** Where a member-side request comes in the loop body: disable, then dissociate, then delete. */
  function Step(c: Call): nat
  {
    if c.DisableDetector? then 0 else if c.DisassociateFromMaster? then 1 else 2
  }

  /** Each request comes strictly later in the loop body than the one before it. */
  predicate InLoopOrder(calls: seq<Call>)
  {
    forall i, j :: 0 <= i < j < |calls| ==> Step(calls[i]) < Step(calls[j])
  }

  /** The member-side requests for one account, in the loop's order. */
  function MemberActions(accountId: string, f: DisableFlags): (r: seq<Call>)
    ensures |r| == PerAccount(f)
    ensures forall c :: c in r ==> AllowedBy(c, f) && c.accountId == accountId
    // one request per flag that asks for it
    ensures DisableDetector(accountId) in r <==> f.disableDetector
    ensures DisassociateFromMaster(accountId) in r <==> f.dissociate
    ensures DeleteDetector(accountId) in r <==> f.deleteDetector
  {
    (if f.disableDetector then [DisableDetector(accountId)] else [])
      + (if f.dissociate then [DisassociateFromMaster(accountId)] else [])
      + (if f.deleteDetector then [DeleteDetector(accountId)] else [])
  }

  /** One account's requests come in the order of the loop body, so no kind is repeated. */
  lemma MemberActionsInLoopOrder(accountId: string, f: DisableFlags)
    ensures InLoopOrder(MemberActions(accountId, f))
  {
  }

  /**
   * The per-account loop. Reading `role` with a subscript raises `KeyError`
   * at the first entry without one, after the earlier entries were handled.
   */
  function DisableMembers(accounts: seq<Account>, f: DisableFlags): (r: Outcome)
    ensures r.error.None? <==> forall i :: 0 <= i < |accounts| ==> accounts[i].role.Some?
    ensures r.error.Some? ==>
      exists i :: FirstWithoutRoleAt(accounts, i) && r.error.value == MissingRole(accounts[i].name)
  {
    if |accounts| == 0 then Outcome([], None)
    else if accounts[0].role.None? then
      assert FirstWithoutRoleAt(accounts, 0);
      Outcome([], Some(MissingRole(accounts[0].name)))
    else
      var rest := DisableMembers(accounts[1..], f);
      var here := MemberActions(accounts[0].accountId, f);
      assert forall i :: 0 <= i < |accounts[1..]| ==> accounts[1..][i] == accounts[i + 1];
      assert rest.error.Some? ==>
        exists i :: FirstWithoutRoleAt(accounts, i) && rest.error.value == MissingRole(accounts[i].name) by {
        if rest.error.Some? {
          var i :| FirstWithoutRoleAt(accounts[1..], i) && rest.error.value == MissingRole(accounts[1..][i].name);
          assert FirstWithoutRoleAt(accounts, i + 1);
        }
      }
      Outcome(here + rest.calls, rest.error)
  }

  /** Each handled account costs the same number of requests; the loop stops at the first entry without a role. */
  lemma {:induction false} DisableMembersCount(accounts: seq<Account>, f: DisableFlags)
    ensures |DisableMembers(accounts, f).calls| == HandledBeforeError(accounts) * PerAccount(f)
    decreases |accounts|
  {
    if |accounts| > 0 && accounts[0].role.Some? {
      var x, t := accounts[0], accounts[1..];
      var n, k := HandledBeforeError(t), PerAccount(f);
      DisableMembersCount(t, f);
      assert |DisableMembers(accounts, f).calls| == k + |DisableMembers(t, f).calls| by {
        assert accounts == [x] + t;
        DisableMembersCons(x, t, f);
      }
      assert HandledBeforeError(accounts) * k == k + n * k by {
        assert HandledBeforeError(accounts) == n + 1;
        MulSucc(n, k);
      }
    }
  }

  lemma MulSucc(n: nat, k: nat)
    ensures (n + 1) * k == k + n * k
  {
  }

  /** The number of leading entries that have a `role` key. */
  function HandledBeforeError(accounts: seq<Account>): (n: nat)
    ensures n <= |accounts|
    ensures n < |accounts| ==> FirstWithoutRoleAt(accounts, n)
    ensures n == |accounts| ==> forall i :: 0 <= i < |accounts| ==> accounts[i].role.Some?
  {
    if |accounts| == 0 || accounts[0].role.None? then 0
    else
      assert forall i :: 0 <= i < |accounts[1..]| ==> accounts[1..][i] == accounts[i + 1];
      1 + HandledBeforeError(accounts[1..])
  }

  /** A run of accounts that all have a role: the loop handles it and carries on. */
  lemma {:induction false} DisableMembersDistributes(a: seq<Account>, b: seq<Account>, f: DisableFlags)
    requires forall x :: x in a ==> x.role.Some?
    ensures DisableMembers(a + b, f).calls == DisableMembers(a, f).calls + DisableMembers(b, f).calls
    ensures DisableMembers(a + b, f).error == DisableMembers(b, f).error
    decreases |a|
  {
    if |a| == 0 {
      assert a + b == b;
      assert DisableMembers(a, f).calls == [];
      assert [] + DisableMembers(b, f).calls == DisableMembers(b, f).calls;
    } else {
      var x, t := a[0], a[1..];
      assert a == [x] + t;
      assert forall y :: y in t ==> y in a;
      DisableMembersDistributes(t, b, f);
      DisableMembersConsAppend(x, t, b, f);
      DisableMembersCons(x, t, f);
      AppendAssoc(MemberActions(x.accountId, f), DisableMembers(t, f).calls, DisableMembers(b, f).calls);
    }
  }

  lemma AppendAssoc(p: seq<Call>, q: seq<Call>, r: seq<Call>)
    ensures p + (q + r) == (p + q) + r
  {
  }

  /** Unfolding the loop once at an account with a role, ahead of a concatenation. */
  lemma DisableMembersConsAppend(x: Account, t: seq<Account>, b: seq<Account>, f: DisableFlags)
    requires x.role.Some?
    ensures DisableMembers([x] + t + b, f).calls == MemberActions(x.accountId, f) + DisableMembers(t + b, f).calls
    ensures DisableMembers([x] + t + b, f).error == DisableMembers(t + b, f).error
  {
    assert [x] + t + b == [x] + (t + b);
    DisableMembersCons(x, t + b, f);
  }

  /** Unfolding the loop once at an account with a role. */
  lemma DisableMembersCons(x: Account, rest: seq<Account>, f: DisableFlags)
    requires x.role.Some?
    ensures DisableMembers([x] + rest, f) ==
      Outcome(MemberActions(x.accountId, f) + DisableMembers(rest, f).calls, DisableMembers(rest, f).error)
  {
    assert ([x] + rest)[1..] == rest;
  }

  /** One account with a role gets exactly its member-side requests. */
  lemma DisableMembersSingle(x: Account, f: DisableFlags)
    requires x.role.Some?
    ensures DisableMembers([x], f) == Outcome(MemberActions(x.accountId, f), None)
  {
    assert [x][1..] == [];
  }

  /** Every account before the first one without a role gets all of its member-side requests. */
  lemma {:induction false} DisableMembersCovers(accounts: seq<Account>, f: DisableFlags)
    ensures forall i :: 0 <= i < HandledBeforeError(accounts) ==>
      forall c :: c in MemberActions(accounts[i].accountId, f) ==> c in DisableMembers(accounts, f).calls
    decreases |accounts|
  {
    if |accounts| > 0 && accounts[0].role.Some? {
      var x, t := accounts[0], accounts[1..];
      var here, rest := MemberActions(x.accountId, f), DisableMembers(t, f).calls;
      DisableMembersCovers(t, f);
      assert DisableMembers(accounts, f).calls == here + rest by {
        assert accounts == [x] + t;
        DisableMembersCons(x, t, f);
      }
      assert HandledBeforeError(accounts) == 1 + HandledBeforeError(t);
      forall i | 0 <= i < HandledBeforeError(accounts)
        ensures forall c :: c in MemberActions(accounts[i].accountId, f) ==> c in here + rest
      {
        if i == 0 {
          assert forall c :: c in here ==> c in here + rest;
        } else {
          assert accounts[i] == t[i - 1];
          assert forall c :: c in rest ==> c in here + rest;
        }
      }
    }
  }

  /** What `DisableMembersCovers` gives, per flag, after any bulk request. */
  lemma ModesCovered(bulk: seq<Call>, accounts: seq<Account>, f: DisableFlags)
    ensures forall i :: 0 <= i < HandledBeforeError(accounts) ==>
      && (f.disableDetector ==> DisableDetector(accounts[i].accountId) in bulk + DisableMembers(accounts, f).calls)
      && (f.dissociate ==> DisassociateFromMaster(accounts[i].accountId) in bulk + DisableMembers(accounts, f).calls)
      && (f.deleteDetector ==> DeleteDetector(accounts[i].accountId) in bulk + DisableMembers(accounts, f).calls)
  {
    DisableMembersCovers(accounts, f);
    forall i | 0 <= i < HandledBeforeError(accounts)
      ensures && (f.disableDetector ==> DisableDetector(accounts[i].accountId) in bulk + DisableMembers(accounts, f).calls)
              && (f.dissociate ==> DisassociateFromMaster(accounts[i].accountId) in bulk + DisableMembers(accounts, f).calls)
              && (f.deleteDetector ==> DeleteDetector(accounts[i].accountId) in bulk + DisableMembers(accounts, f).calls)
    {
      var id := accounts[i].accountId;
      var actions := MemberActions(id, f);
      assert forall c :: c in actions ==> c in DisableMembers(accounts, f).calls;
    }
  }

  /** The loop only issues the member-side requests the flags ask for, and only for the given accounts. */
  lemma {:induction false} DisableMembersStaysInScope(accounts: seq<Account>, f: DisableFlags)
    ensures forall c :: c in DisableMembers(accounts, f).calls ==>
      AllowedBy(c, f) && HandledId(accounts, c.accountId)
    decreases |accounts|
  {
    if |accounts| > 0 && accounts[0].role.Some? {
      var x, t := accounts[0], accounts[1..];
      var here, rest := MemberActions(x.accountId, f), DisableMembers(t, f).calls;
      DisableMembersStaysInScope(t, f);
      assert DisableMembers(accounts, f).calls == here + rest by {
        assert accounts == [x] + t;
        DisableMembersCons(x, t, f);
      }
      assert HandledBeforeError(accounts) == 1 + HandledBeforeError(t);
      forall c | c in here + rest
        ensures AllowedBy(c, f) && HandledId(accounts, c.accountId)
      {
        if c in here {
          assert accounts[0].accountId == c.accountId;
        } else {
          var j :| 0 <= j < HandledBeforeError(t) && t[j].accountId == c.accountId;
          assert accounts[j + 1] == t[j];
        }
      }
    }
  }

  /** Some account the loop reached before any `KeyError` has the id `id`. */
  predicate HandledId(accounts: seq<Account>, id: string)
  {
    exists j :: 0 <= j < HandledBeforeError(accounts) && accounts[j].accountId == id
  }

  /** After the bulk request, every request is a flagged member-side one for a reached account. */
  lemma AfterBulk(bulk: seq<Call>, accounts: seq<Account>, f: DisableFlags)
    ensures forall i :: |bulk| <= i < |bulk + DisableMembers(accounts, f).calls| ==>
      AllowedBy((bulk + DisableMembers(accounts, f).calls)[i], f) &&
      HandledId(accounts, (bulk + DisableMembers(accounts, f).calls)[i].accountId)
  {
    var loop := DisableMembers(accounts, f).calls;
    DisableMembersStaysInScope(accounts, f);
    forall i | |bulk| <= i < |bulk + loop|
      ensures AllowedBy((bulk + loop)[i], f) && HandledId(accounts, (bulk + loop)[i].accountId)
    {
      assert (bulk + loop)[i] == loop[i - |bulk|];
      assert loop[i - |bulk|] in loop;
    }
  }

  /**
   * The requests outside suspension: one bulk disassociation at the master
   * when dissociating, then the per-account loop.
   */
  function Sweep(accounts: seq<Account>, f: DisableFlags): (r: Outcome)
    ensures f.dissociate ==> |r.calls| > 0 && r.calls[0] == DisassociateMembers(AccountIds(accounts))
    // the loop runs until the first account without a role
    ensures r.error.None? <==> forall i :: 0 <= i < |accounts| ==> accounts[i].role.Some?
    // every account it reaches gets the requests the flags ask for
    ensures forall i :: 0 <= i < HandledBeforeError(accounts) ==>
      && (f.disableDetector ==> DisableDetector(accounts[i].accountId) in r.calls)
      && (f.dissociate ==> DisassociateFromMaster(accounts[i].accountId) in r.calls)
      && (f.deleteDetector ==> DeleteDetector(accounts[i].accountId) in r.calls)
    // and nothing else: after the bulk request, only flagged requests for reached accounts
    ensures |r.calls| == Bit(f.dissociate) + HandledBeforeError(accounts) * PerAccount(f)
    ensures forall i :: Bit(f.dissociate) <= i < |r.calls| ==>
      AllowedBy(r.calls[i], f) && HandledId(accounts, r.calls[i].accountId)
  {
    var bulk := if f.dissociate then [DisassociateMembers(AccountIds(accounts))] else [];
    var loop := DisableMembers(accounts, f);
    AfterBulk(bulk, accounts, f);
    DisableMembersCount(accounts, f);
    ModesCovered(bulk, accounts, f);
    Outcome(bulk + loop.calls, loop.error)
  }

  /** `disable` once the master is resolved, over the selected accounts. */
  function DisableFor(master: Account, accounts: seq<Account>, f: DisableFlags): (r: Outcome)
    // the mode check comes first and raises before any request
    ensures r.error == Some(InvalidDisableModes) <==> ModeCount(f) != 1
    ensures ModeCount(f) != 1 ==> r.calls == []
    // the master entry must have a `role` key
    ensures ModeCount(f) == 1 && master.role.None? ==> r == Outcome([], Some(MissingRole(master.name)))
    // suspension is one bulk request and nothing per account, even with delete-detector
    ensures ModeCount(f) == 1 && master.role.Some? && f.suspend ==>
      r == Outcome([StopMonitoring(AccountIds(accounts))], None)
    // disassociation starts with one bulk request at the master
    ensures ModeCount(f) == 1 && master.role.Some? && f.dissociate ==>
      |r.calls| > 0 && r.calls[0] == DisassociateMembers(AccountIds(accounts)) &&
      forall i :: 0 < i < |r.calls| ==> MemberSide(r.calls[i]) && !r.calls[i].DisableDetector?
    // disabling detectors touches only member accounts, never disassociating
    ensures ModeCount(f) == 1 && master.role.Some? && f.disableDetector ==>
      forall i :: 0 <= i < |r.calls| ==> MemberSide(r.calls[i]) && !r.calls[i].DisassociateFromMaster?
    // otherwise the bulk request, if any, and the per-account loop
    ensures ModeCount(f) == 1 && master.role.Some? && !f.suspend ==> r == Sweep(accounts, f)
  {
    if ModeCount(f) != 1 then Outcome([], Some(InvalidDisableModes))
    else if master.role.None? then Outcome([], Some(MissingRole(master.name)))
    else if f.suspend then Outcome([StopMonitoring(AccountIds(accounts))], None)
    else Sweep(accounts, f)
  }

  /** The `disable` command: the master is resolved before the modes are checked. */
  function Disable(config: seq<Account>, masterName: string, accounts: seq<Account>,
                   f: DisableFlags): (r: Outcome)
    ensures r.error == Some(MasterNotFound(masterName)) <==>
      forall i :: 0 <= i < |config| ==> !IsMaster(config[i], masterName)
    ensures (exists i :: 0 <= i < |config| && IsMaster(config[i], masterName)) ==>
      (r.error == Some(InvalidDisableModes) <==> ModeCount(f) != 1)
    // both configuration errors come before any request
    ensures r.error == Some(MasterNotFound(masterName)) ==> r.calls == []
    ensures r.error == Some(InvalidDisableModes) ==> r.calls == []
  {
    match GetMasterInfo(config, masterName)
    case Failure(e) => Outcome([], Some(e))
    case Success(master) => DisableFor(master, accounts, f)
  }
}

=== FILE: enable.dfy ===
/**
 * The `enable` command: resume suspended members, enrol and invite the new
 * ones under the 1000-member ceiling, then submit one accept task per
 * account other than the master.
 */
module Enable {
  import opened Wrappers
  import opened Accounts
  import opened Membership
  import opened Calls

  /** The vendor's ceiling on the members of one master account. */
  const MemberLimit := 1000

  /**
   * The invite request for the created members. The welcome text is sent
   * only when it is present and non-empty (Python treats "" as false).
   */
  function InviteFor(created: seq<MemberDetail>, message: Option<string>): (r: InviteRequest)
    ensures |r.accountIds| == |created|
    ensures forall i :: 0 <= i < |created| ==> r.accountIds[i] == created[i].accountId
    ensures r.message.Some? <==> message.Some? && message.value != ""
    ensures r.message.Some? ==> r.message == message
  {
    var ids := seq(|created|, i requires 0 <= i < |created| => created[i].accountId);
    InviteRequest(ids, if message.Some? && message.value != "" then message else None)
  }

  /** The accounts that get an accept task: every entry except the master record itself. */
  function AcceptTargets(accounts: seq<Account>, master: Account): (r: seq<Account>)
    ensures master !in r
    ensures forall a :: a in r <==> a in accounts && a != master
    ensures |r| == |accounts| - multiset(accounts)[master]
  {
    if |accounts| == 0 then []
    else
      assert accounts == [accounts[0]] + accounts[1..];
      (if accounts[0] == master then [] else [accounts[0]]) + AcceptTargets(accounts[1..], master)
  }

  /** Each entry other than the master gets as many tasks as it has copies. */
  lemma {:induction false} AcceptTargetsCounts(accounts: seq<Account>, master: Account)
    ensures forall a :: a != master ==> multiset(AcceptTargets(accounts, master))[a] == multiset(accounts)[a]
    decreases |accounts|
  {
    if |accounts| > 0 {
      AcceptTargetsCounts(accounts[1..], master);
      assert accounts == [accounts[0]] + accounts[1..];
    }
  }

  /** The filter distributes over concatenation, so the targets keep configuration order. */
  lemma {:induction false} AcceptTargetsDistributes(a: seq<Account>, b: seq<Account>, master: Account)
    ensures AcceptTargets(a + b, master) == AcceptTargets(a, master) + AcceptTargets(b, master)
    decreases |a|
  {
    if |a| == 0 {
      assert a + b == b;
    } else {
      assert (a + b)[0] == a[0] && (a + b)[1..] == a[1..] + b;
      AcceptTargetsDistributes(a[1..], b, master);
    }
  }

  /** One accept task per target, in order. */
  function SubmitAll(targets: seq<Account>, masterId: string): (r: seq<Call>)
    ensures |r| == |targets|
    ensures forall i :: 0 <= i < |targets| ==> r[i] == SubmitAccept(targets[i], masterId)
  {
    seq(|targets|, i requires 0 <= i < |targets| => SubmitAccept(targets[i], masterId))
  }

  /** The members `enable` would create. */
  function ToCreate(targets: seq<Account>, members: seq<Member>): seq<MemberDetail>
  {
    NewMembers(targets, ExtantIds(members))
  }

  /** The master's member count once the new members are added. */
  function Prospective(targets: seq<Account>, members: seq<Member>): nat
  {
    |ToCreate(targets, members)| + |ExtantIds(members)|
  }

  /** The resume request, present only when some configured member is suspended. */
  function Resume(targets: seq<Account>, members: seq<Member>): seq<Call>
  {
    var suspended := SuspendedIds(targets, members);
    if suspended == {} then [] else [StartMonitoring(suspended)]
  }

  /** A request that belongs to enrolment: create, invite or accept. */
  predicate Enrols(c: Call)
  {
    c.CreateMembers? || c.InviteMembers? || c.SubmitAccept?
  }

  /** `enable` once the master is resolved; `members` is the master's member list. */
  function EnableFor(master: Account, targets: seq<Account>, members: seq<Member>,
                     message: Option<string>): (r: Outcome)
    // suspended members are resumed first, in one request, exactly when there are any
    ensures (|r.calls| > 0 && r.calls[0].StartMonitoring?) <==> SuspendedIds(targets, members) != {}
    ensures forall i :: 0 <= i < |r.calls| && r.calls[i].StartMonitoring? ==>
      i == 0 && r.calls[i].resumed == SuspendedIds(targets, members)
    // the ceiling is the only error, and it stops enrolment before anything is created
    ensures r.error.Some? <==> |ToCreate(targets, members)| > 0 && Prospective(targets, members) > MemberLimit
    ensures r.error.Some? ==> r.error.value == MemberLimitExceeded(Prospective(targets, members))
    // and the command stops there: the resume request, if any, is all it sends
    ensures (|ToCreate(targets, members)| == 0 || r.error.Some?) ==> r.calls == Resume(targets, members)
  {
    var extant := ExtantIds(members);
    var suspended := SuspendedIds(targets, members);
    var resume := if suspended == {} then [] else [StartMonitoring(suspended)];
    assert resume == Resume(targets, members);
    var created := NewMembers(targets, extant);
    if |created| == 0 then
      Outcome(resume, None)
    else if |created| + |extant| > MemberLimit then
      Outcome(resume, Some(MemberLimitExceeded(|created| + |extant|)))
    else
      var tasks := SubmitAll(AcceptTargets(targets, master), master.accountId);
      EnrolsAfterResume(resume, [CreateMembers(created), InviteMembers(InviteFor(created, message))], tasks);
      Outcome(resume + [CreateMembers(created), InviteMembers(InviteFor(created, message))] + tasks, None)
  }

  /** Everything after the resume request in an enrolling trace is an enrolment request. */
  lemma EnrolsAfterResume(resume: seq<Call>, enrol: seq<Call>, tasks: seq<Call>)
    requires forall j :: 0 <= j < |enrol| ==> Enrols(enrol[j])
    requires forall j :: 0 <= j < |tasks| ==> Enrols(tasks[j])
    ensures forall i :: |resume| <= i < |resume + enrol + tasks| ==> Enrols((resume + enrol + tasks)[i])
  {
    var calls := resume + enrol + tasks;
    forall i | |resume| <= i < |calls|
      ensures Enrols(calls[i])
    {
      if i >= |resume| + |enrol| {
        assert calls[i] == tasks[i - |resume| - |enrol|];
      } else {
        assert calls[i] == enrol[i - |resume|];
      }
    }
  }

  /**
   * When enrolment proceeds, the whole trace: the resume request, if any;
   * the creation of the new members; the invite of exactly those; then one
   * accept task per non-master entry, in configuration order. Nothing fails.
   */
  lemma EnrolmentOrder(master: Account, targets: seq<Account>, members: seq<Member>,
                       message: Option<string>)
    requires |ToCreate(targets, members)| > 0
    requires Prospective(targets, members) <= MemberLimit
    ensures EnableFor(master, targets, members, message) ==
      Outcome(Resume(targets, members)
                + [CreateMembers(ToCreate(targets, members)), InviteMembers(InviteFor(ToCreate(targets, members), message))]
                + SubmitAll(AcceptTargets(targets, master), master.accountId),
              None)
  {
  }

  /** The `enable` command: resolve the master in the configuration, then enrol `targets`. */
  function Enable(config: seq<Account>, masterName: string, targets: seq<Account>,
                  members: seq<Member>, message: Option<string>): (r: Outcome)
    ensures r.error == Some(MasterNotFound(masterName)) && r.calls == [] <==>
      forall i :: 0 <= i < |config| ==> !IsMaster(config[i], masterName)
  {
    match GetMasterInfo(config, masterName)
    case Failure(e) => Outcome([], Some(e))
    case Success(master) => EnableFor(master, targets, members, message)
  }
}

=== FILE: invitations.dfy ===
/**
 * `enable_account`: in a member account, resolve the detector, keep the
 * invitations sent by the master, sort them by `InvitedAt` and accept the
 * last one.
 */
module Invitations {
  import opened Wrappers
  import opened Accounts
  import Lex
  import StableSort
  import Detector

  /** The invitations sent by `masterId`, in listing order. */
  function FromMaster(invitations: seq<Invitation>, masterId: string): (r: seq<Invitation>)
    ensures |r| <= |invitations|
    ensures forall i :: i in r <==> i in invitations && i.accountId == masterId
  {
    if |invitations| == 0 then []
    else
      assert forall i :: i in invitations <==> i == invitations[0] || i in invitations[1..];
      (if invitations[0].accountId == masterId then [invitations[0]] else [])
        + FromMaster(invitations[1..], masterId)
  }

  /** The filter keeps listing order and multiplicity: it distributes over concatenation. */
  lemma {:induction false} FromMasterDistributes(a: seq<Invitation>, b: seq<Invitation>, masterId: string)
    ensures FromMaster(a + b, masterId) == FromMaster(a, masterId) + FromMaster(b, masterId)
    decreases |a|
  {
    if |a| == 0 {
      assert a + b == b;
    } else {
      assert (a + b)[0] == a[0] && (a + b)[1..] == a[1..] + b;
      FromMasterDistributes(a[1..], b, masterId);
    }
  }

  /** A single invitation is kept exactly when the master sent it. */
  lemma FromMasterSingle(x: Invitation, masterId: string)
    ensures FromMaster([x], masterId) == if x.accountId == masterId then [x] else []
  {
    assert [x][1..] == [];
  }

  function InvitedAt(i: Invitation): string
  {
    i.invitedAt
  }

  /** The invitations ordered by `InvitedAt`, oldest first, stably. */
  function ByInvitedAt(invitations: seq<Invitation>): seq<Invitation>
  {
    StableSort.SortBy(invitations, InvitedAt, false)
  }

  /** The invitation `enable_account` accepts, if any. */
  function SelectInvitation(invitations: seq<Invitation>, masterId: string): (r: Option<Invitation>)
    ensures r.None? <==> forall i :: i in invitations ==> i.accountId != masterId
    ensures r.Some? ==> r.value in invitations && r.value.accountId == masterId
  {
    var fromMaster := FromMaster(invitations, masterId);
    var sorted := ByInvitedAt(fromMaster);
    assert |sorted| == |multiset(sorted)| == |multiset(fromMaster)| == |fromMaster|;
    if |sorted| == 0 then None
    else
      assert fromMaster[0] in fromMaster;
      assert sorted[|sorted| - 1] in multiset(sorted);
      Some(sorted[|sorted| - 1])
  }

  /**
   * The latest invitation: `k` has the greatest `InvitedAt`, and every later
   * invitation is strictly older, so among equal timestamps the last listed
   * one wins.
   */
  predicate IsLatestAt(s: seq<Invitation>, k: int)
  {
    && 0 <= k < |s|
    && (forall j :: 0 <= j < |s| ==> Lex.LessEq(s[j].invitedAt, s[k].invitedAt))
    && (forall j :: k < j < |s| ==> Lex.Less(s[j].invitedAt, s[k].invitedAt))
  }

  /** Reference definition of the latest invitation, by one scan from the end. */
  function LatestIndex(s: seq<Invitation>): (k: nat)
    requires |s| > 0
    ensures IsLatestAt(s, k)
  {
    if |s| == 1 then
      Lex.Reflexive(s[0].invitedAt);
      0
    else
      var k' := LatestIndex(s[1..]);
      assert forall j :: 1 <= j < |s| ==> s[j] == s[1..][j - 1];
      if Lex.LessEq(s[0].invitedAt, s[k' + 1].invitedAt) then
        Lex.Reflexive(s[k' + 1].invitedAt);
        k' + 1
      else
        Lex.Total(s[0].invitedAt, s[k' + 1].invitedAt);
        Lex.Reflexive(s[0].invitedAt);
        assert forall j :: 0 < j < |s| ==> Lex.Less(s[j].invitedAt, s[0].invitedAt) by {
          forall j | 0 < j < |s|
            ensures Lex.Less(s[j].invitedAt, s[0].invitedAt)
          {
            Lex.Transitive(s[j].invitedAt, s[k' + 1].invitedAt, s[0].invitedAt);
            Lex.Trichotomy(s[0].invitedAt, s[k' + 1].invitedAt);
          }
        }
        0
  }

  /** Some element of `t` has an `InvitedAt` at or above that of `x`. */
  predicate SomeAtOrAbove(x: Invitation, t: seq<Invitation>)
  {
    exists j :: 0 <= j < |t| && Lex.LessEq(x.invitedAt, t[j].invitedAt)
  }

  /** The last element after `Insert`: `x` itself only when no element of `t` has a key at or above it. */
  lemma {:induction false} LastOfInsert(x: Invitation, t: seq<Invitation>)
    ensures var r := StableSort.Insert(x, t, InvitedAt, false);
      r[|r| - 1] == if SomeAtOrAbove(x, t) then t[|t| - 1] else x
    decreases |t|
  {
    if |t| > 0 && !StableSort.InOrder(false, x.invitedAt, t[0].invitedAt) {
      var rest := StableSort.Insert(x, t[1..], InvitedAt, false);
      assert StableSort.Insert(x, t, InvitedAt, false) == [t[0]] + rest;
      LastOfInsert(x, t[1..]);
      if SomeAtOrAbove(x, t) {
        var j :| 0 <= j < |t| && Lex.LessEq(x.invitedAt, t[j].invitedAt);
        assert j > 0;
        assert t[1..][j - 1] == t[j];
        assert SomeAtOrAbove(x, t[1..]);
      }
    } else if |t| > 0 {
      assert SomeAtOrAbove(x, t);
    }
  }

  /** The last element of the stable ascending sort is the latest invitation. */
  lemma {:induction false} LastOfSortIsLatest(s: seq<Invitation>)
    requires |s| > 0
    ensures var r := ByInvitedAt(s); r[|r| - 1] == s[LatestIndex(s)]
    decreases |s|
  {
    var t := ByInvitedAt(s[1..]);
    if |s| > 1 {
      LastOfSortIsLatest(s[1..]);
      var k' := LatestIndex(s[1..]);
      var top := s[1..][k'];
      assert t[|t| - 1] == top;
      LastOfInsert(s[0], t);
      // Some element of the sorted rest is at or above s[0] exactly when the rest's latest is.
      assert ByInvitedAt(s) == StableSort.Insert(s[0], t, InvitedAt, false);
      if SomeAtOrAbove(s[0], t) {
        var j :| 0 <= j < |t| && Lex.LessEq(s[0].invitedAt, t[j].invitedAt);
        assert t[j] in multiset(s[1..]);
        var q :| 0 <= q < |s[1..]| && s[1..][q] == t[j];
        Lex.Transitive(s[0].invitedAt, t[j].invitedAt, top.invitedAt);
      } else {
        assert top in multiset(t);
      }
    }
  }

  /** The accepted invitation is the latest one the master sent. */
  lemma SelectInvitationIsLatest(invitations: seq<Invitation>, masterId: string)
    ensures SelectInvitation(invitations, masterId).Some? ==>
      exists k :: IsLatestAt(FromMaster(invitations, masterId), k) &&
        FromMaster(invitations, masterId)[k] == SelectInvitation(invitations, masterId).value
  {
    var fromMaster := FromMaster(invitations, masterId);
    var sorted := ByInvitedAt(fromMaster);
    assert |sorted| == |multiset(sorted)| == |multiset(fromMaster)| == |fromMaster|;
    if |fromMaster| > 0 {
      LastOfSortIsLatest(fromMaster);
      assert SelectInvitation(invitations, masterId) == Some(sorted[|sorted| - 1]);
      assert IsLatestAt(fromMaster, LatestIndex(fromMaster));
    }
  }

  /** The `accept_invitation` request. */
  datatype AcceptRequest = AcceptRequest(detectorId: string, invitationId: string, masterId: string)

  /**
   * What one account's accept task does: the request it sends (`None` when
   * no invitation from the master is listed) and the account's detector list
   * afterwards.
   */
  datatype AcceptOutcome = AcceptOutcome(accepted: Option<AcceptRequest>, detectors: seq<string>)

  function EnableAccount(masterId: string, detectors: seq<string>, freshDetectorId: string,
                         invitations: seq<Invitation>): (r: AcceptOutcome)
    ensures r.accepted.None? <==> forall i :: i in invitations ==> i.accountId != masterId
    ensures r.accepted.Some? ==>
      && r.accepted.value.masterId == masterId
      && r.accepted.value.detectorId in r.detectors
      && exists i :: i in invitations && i.accountId == masterId && i.invitationId == r.accepted.value.invitationId
    // the accepted invitation is the latest one the master sent
    ensures r.accepted.Some? ==>
      exists k :: IsLatestAt(FromMaster(invitations, masterId), k) &&
        r.accepted.value.invitationId == FromMaster(invitations, masterId)[k].invitationId
    // on the account's first detector, or on the one just created
    ensures r.accepted.Some? ==>
      r.accepted.value.detectorId == if |detectors| > 0 then detectors[0] else freshDetectorId
    ensures |detectors| > 0 ==> r.detectors == detectors
    // the detector is resolved before the invitations are looked at, so one is created even when nothing is accepted
    ensures |detectors| == 0 ==> r.detectors == [freshDetectorId]
  {
    var resolved := Detector.GetOrCreate(detectors, freshDetectorId);
    SelectInvitationIsLatest(invitations, masterId);
    match SelectInvitation(invitations, masterId)
    case None => AcceptOutcome(None, resolved.detectors)
    case Some(latest) =>
      AcceptOutcome(Some(AcceptRequest(resolved.detectorId, latest.invitationId, masterId)), resolved.detectors)
  }
}

=== FILE: lex.dfy ===
/**
 * Python's ordering of `str` values: code point by code point, a proper
 * prefix before any longer string. Timestamps in this program (the vendor's
 * `InvitedAt` and `UpdatedAt`, and the ISO text of the local clock) are
 * strings and are sorted with this ordering.
 */
module Lex {

  /** `a <= b` on Python strings. */
  predicate LessEq(a: string, b: string)
    decreases |a|
  {
    if |a| == 0 then true
    else if |b| == 0 then false
    else if a[0] != b[0] then a[0] < b[0]
    else LessEq(a[1..], b[1..])
  }

  /** `a < b` on Python strings. */
  predicate Less(a: string, b: string)
  {
    LessEq(a, b) && a != b
  }

  lemma {:induction false} Reflexive(a: string)
    ensures LessEq(a, a)
    decreases |a|
  {
    if |a| > 0 {
      Reflexive(a[1..]);
    }
  }

  lemma {:induction false} Total(a: string, b: string)
    ensures LessEq(a, b) || LessEq(b, a)
    decreases |a|
  {
    if |a| > 0 && |b| > 0 && a[0] == b[0] {
      Total(a[1..], b[1..]);
    }
  }

  lemma {:induction false} Antisymmetric(a: string, b: string)
    requires LessEq(a, b) && LessEq(b, a)
    ensures a == b
    decreases |a|
  {
    if |a| > 0 && |b| > 0 {
      Antisymmetric(a[1..], b[1..]);
      assert a == [a[0]] + a[1..];
      assert b == [b[0]] + b[1..];
    }
  }

  lemma {:induction false} Transitive(a: string, b: string, c: string)
    requires LessEq(a, b) && LessEq(b, c)
    ensures LessEq(a, c)
    decreases |a|
  {
    if |a| > 0 && |b| > 0 && |c| > 0 && a[0] == b[0] && b[0] == c[0] {
      Transitive(a[1..], b[1..], c[1..]);
    }
  }

  /** Two strings neither of which is below the other are equal; otherwise exactly one is strictly below. */
  lemma Trichotomy(a: string, b: string)
    ensures Less(a, b) || a == b || Less(b, a)
    ensures !(Less(a, b) && LessEq(b, a))
  {
    Total(a, b);
    if LessEq(a, b) && LessEq(b, a) {
      Antisymmetric(a, b);
    }
  }
}

=== FILE: membership.dfy ===
/**
 * The membership differ of the `enable` command, and the member lookup of
 * the `report` command: how the configured accounts relate to the master
 * detector's current member list.
 */
module Membership {
  import opened Wrappers
  import opened Accounts

  /** The relationship status of a member whose monitoring was stopped. */
  const Disabled: string := "Disabled"

  /** One entry of the `create_members` request. */
  datatype MemberDetail = MemberDetail(accountId: string, email: string)

  /** The account ids of the configuration entries. */
  function ConfiguredIds(accounts: seq<Account>): set<string>
  {
    set a | a in accounts :: a.accountId
  }

  /** The account ids present in the member list, whatever their status. */
  function ExtantIds(members: seq<Member>): (r: set<string>)
    ensures forall m :: m in members ==> m.accountId in r
    ensures forall id :: id in r ==> exists m :: m in members && m.accountId == id
  {
    set m | m in members :: m.accountId
  }

  /**
   * The configured accounts whose monitoring is stopped: some member record
   * for the id has status `Disabled`.
   */
  function SuspendedIds(accounts: seq<Account>, members: seq<Member>): (r: set<string>)
    ensures forall id :: id in r <==>
      (id in ConfiguredIds(accounts) &&
       exists m :: m in members && m.accountId == id && m.relationshipStatus == Disabled)
  {
    var disabled := set m | m in members && m.relationshipStatus == Disabled :: m.accountId;
    set a | a in accounts && a.accountId in disabled :: a.accountId
  }

  /** The suspended set lies within both the configured ids and the extant ids. */
  lemma SuspendedWithinConfiguredAndExtant(accounts: seq<Account>, members: seq<Member>)
    ensures SuspendedIds(accounts, members) <= ConfiguredIds(accounts)
    ensures SuspendedIds(accounts, members) <= ExtantIds(members)
  {
  }

  /** The create request entry for one configuration entry. */
  function Detail(a: Account): MemberDetail
  {
    MemberDetail(a.accountId, a.email)
  }

  /** The configured accounts that are not members yet, in configuration order. */
  function NewMembers(accounts: seq<Account>, extant: set<string>): (r: seq<MemberDetail>)
    ensures |r| <= |accounts|
    ensures forall d :: d in r ==> d.accountId !in extant
    ensures forall a :: a in accounts && a.accountId !in extant ==> Detail(a) in r
    ensures forall d :: d in r ==> exists a :: a in accounts && a.accountId !in extant && Detail(a) == d
  {
    if |accounts| == 0 then []
    else
      var rest := NewMembers(accounts[1..], extant);
      assert forall a :: a in accounts[1..] ==> a in accounts;
      assert forall a :: a in accounts ==> a == accounts[0] || a in accounts[1..];
      (if accounts[0].accountId in extant then [] else [Detail(accounts[0])]) + rest
  }

  /**
   * The new-member list is computed entry by entry: it distributes over
   * concatenation of the configuration, which is what keeping configuration
   * order means.
   */
  lemma {:induction false} NewMembersDistributes(a: seq<Account>, b: seq<Account>, extant: set<string>)
    ensures NewMembers(a + b, extant) == NewMembers(a, extant) + NewMembers(b, extant)
    decreases |a|
  {
    if |a| > 0 {
      assert (a + b)[1..] == a[1..] + b;
      NewMembersDistributes(a[1..], b, extant);
    } else {
      assert a + b == b;
    }
  }

  /** No account is both resumed and created. */
  lemma SuspendedAndNewDisjoint(accounts: seq<Account>, members: seq<Member>)
    ensures forall d :: d in NewMembers(accounts, ExtantIds(members)) ==>
      d.accountId !in SuspendedIds(accounts, members)
  {
  }

  /**
   * The record the `report` command shows for `id`: the member list is
   * turned into a dictionary keyed by account id, so a later record replaces
   * an earlier one with the same id.
   */
  function LookupMember(members: seq<Member>, id: string): (r: Option<Member>)
    ensures r.None? <==> forall j :: 0 <= j < |members| ==> members[j].accountId != id
    ensures r.Some? ==> exists k :: LastRecordAt(members, id, k) && members[k] == r.value
  {
    if |members| == 0 then None
    else
      var later := LookupMember(members[1..], id);
      assert forall j :: 1 <= j < |members| ==> members[j] == members[1..][j - 1];
      if later.Some? then
        var k :| LastRecordAt(members[1..], id, k) && members[1..][k] == later.value;
        assert LastRecordAt(members, id, k + 1);
        later
      else if members[0].accountId == id then
        assert LastRecordAt(members, id, 0);
        Some(members[0])
      else
        None
  }

  /** A member record is found exactly for the extant ids. */
  lemma LookupMemberFindsExtant(members: seq<Member>, id: string)
    ensures LookupMember(members, id).Some? <==> id in ExtantIds(members)
  {
    if id in ExtantIds(members) {
      var m :| m in members && m.accountId == id;
    }
  }

  /** Record `k` carries `id` and no later record does. */
  predicate LastRecordAt(members: seq<Member>, id: string, k: int)
  {
    && 0 <= k < |members|
    && members[k].accountId == id
    && forall j :: k < j < |members| ==> members[j].accountId != id
  }
}

=== FILE: report.dfy ===
/**
 * The `report` command: one row per selected account, merging the entry
 * with the master's member record for it, sorted newest `updated` first.
 */
module Report {
  import opened Wrappers
  import opened Accounts
  import opened Membership
  import Lex
  import StableSort

  /**
   * The membership columns of a row. `NotMember` is the row with
   * member=False, status=None, invited=None; `Joined` is the row with
   * member=True and the member record's status and invitation time.
   */
  datatype Standing = NotMember | Joined(status: string, joined: string)

  /** A report row: the entry without `tags`, `role` and `regions`, plus the membership columns. */
  datatype ReportRow = ReportRow(
    name: string,
    accountId: string,
    email: string,
    profile: Option<string>,
    standing: Standing,
    updated: string)

  /** The row for one entry; `now` is the local clock's ISO text. */
  function BuildRow(a: Account, members: seq<Member>, now: string): (row: ReportRow)
    ensures row.name == a.name && row.accountId == a.accountId
    ensures row.email == a.email && row.profile == a.profile
    ensures row.standing.NotMember? <==> a.accountId !in ExtantIds(members)
    ensures row.standing.NotMember? ==> row.updated == now
    ensures row.standing.Joined? ==>
      exists k :: LastRecordAt(members, a.accountId, k)
        && row.standing.status == members[k].relationshipStatus
        && row.standing.joined == members[k].invitedAt
        && row.updated == members[k].updatedAt
  {
    LookupMemberFindsExtant(members, a.accountId);
    match LookupMember(members, a.accountId)
    case None => ReportRow(a.name, a.accountId, a.email, a.profile, NotMember, now)
    case Some(m) =>
      ReportRow(a.name, a.accountId, a.email, a.profile,
                Joined(m.relationshipStatus, m.invitedAt), m.updatedAt)
  }

  /**
   * The rows in configuration order. Removing `role` without a default
   * raises `KeyError` for an entry that has none.
   */
  function BuildRows(accounts: seq<Account>, members: seq<Member>, now: string)
    : (r: Result<seq<ReportRow>, GuardianError>)
    ensures r.Failure? <==> exists i :: 0 <= i < |accounts| && accounts[i].role.None?
    ensures r.Failure? ==>
      exists i :: FirstWithoutRoleAt(accounts, i) && r.error == MissingRole(accounts[i].name)
    ensures r.Success? ==>
      |r.value| == |accounts| &&
      forall i :: 0 <= i < |accounts| ==> r.value[i] == BuildRow(accounts[i], members, now)
  {
    if |accounts| == 0 then Success([])
    else if accounts[0].role.None? then
      assert FirstWithoutRoleAt(accounts, 0);
      Failure(MissingRole(accounts[0].name))
    else
      var rest := BuildRows(accounts[1..], members, now);
      assert forall i :: 0 <= i < |accounts[1..]| ==> accounts[1..][i] == accounts[i + 1];
      match rest
      case Failure(e) =>
        assert exists i :: FirstWithoutRoleAt(accounts, i) && e == MissingRole(accounts[i].name) by {
          var i :| FirstWithoutRoleAt(accounts[1..], i) && e == MissingRole(accounts[1..][i].name);
          assert FirstWithoutRoleAt(accounts, i + 1);
        }
        Failure(e)
      case Success(rows) => Success([BuildRow(accounts[0], members, now)] + rows)
  }

  function Updated(row: ReportRow): string
  {
    row.updated
  }

  /** The `report` command: resolve the master, build the rows, sort them newest first. */
  function Report(config: seq<Account>, masterName: string, accounts: seq<Account>,
                  members: seq<Member>, now: string): (r: Result<seq<ReportRow>, GuardianError>)
    ensures r.Failure? <==>
      (forall i :: 0 <= i < |config| ==> !IsMaster(config[i], masterName)) ||
      (exists i :: 0 <= i < |accounts| && accounts[i].role.None?)
    ensures r.Success? ==> |r.value| == |accounts|
  {
    match GetMasterInfo(config, masterName)
    case Failure(e) => Failure(e)
    case Success(_) =>
      match BuildRows(accounts, members, now)
      case Failure(e) => Failure(e)
      case Success(rows) =>
        var sorted := StableSort.SortBy(rows, Updated, true);
        assert |sorted| == |multiset(sorted)| == |multiset(rows)| == |rows|;
        Success(sorted)
  }

  /**
   * The report holds exactly the built rows, newest `updated` first, and rows
   * with equal `updated` keep configuration order.
   */
  lemma ReportNewestFirst(config: seq<Account>, masterName: string, accounts: seq<Account>,
                          members: seq<Member>, now: string)
    ensures Report(config, masterName, accounts, members, now).Success? ==>
      BuildRows(accounts, members, now).Success? &&
      SortedRowsOf(Report(config, masterName, accounts, members, now).value,
                   BuildRows(accounts, members, now).value)
  {
    var rows := BuildRows(accounts, members, now);
    if rows.Success? {
      StableSort.SortByIsStableSort(rows.value, Updated, true);
    }
  }

  /** `report` holds exactly `rows`, newest first, equal timestamps in their original order. */
  ghost predicate SortedRowsOf(report: seq<ReportRow>, rows: seq<ReportRow>)
  {
    && multiset(report) == multiset(rows)
    && StableSort.SortedBy(report, Updated, true)
    && forall k :: StableSort.WithKey(report, Updated, k) == StableSort.WithKey(rows, Updated, k)
  }

  /**
   * When every member record was updated strictly before `now`, the rows of
   * accounts that are not members all come before the member rows.
   */
  lemma NonMembersFirst(config: seq<Account>, masterName: string, accounts: seq<Account>,
                        members: seq<Member>, now: string)
    requires Report(config, masterName, accounts, members, now).Success?
    requires forall m :: m in members ==> Lex.Less(m.updatedAt, now)
    ensures var report := Report(config, masterName, accounts, members, now).value;
      forall i, j :: 0 <= i < j < |report| && report[i].standing.Joined? ==> report[j].standing.Joined?
  {
    ReportNewestFirst(config, masterName, accounts, members, now);
    var rows := BuildRows(accounts, members, now).value;
    var report := Report(config, masterName, accounts, members, now).value;
    forall i, j | 0 <= i < j < |report| && report[i].standing.Joined?
      ensures report[j].standing.Joined?
    {
      assert report[i] in multiset(rows);
      var p :| 0 <= p < |rows| && rows[p] == report[i];
      var k :| LastRecordAt(members, accounts[p].accountId, k) && report[i].updated == members[k].updatedAt;
      assert members[k] in members;
      assert StableSort.InOrder(true, report[i].updated, report[j].updated);
      if report[j].standing.NotMember? {
        assert report[j] in multiset(rows);
        var q :| 0 <= q < |rows| && rows[q] == report[j];
        assert report[j].updated == now;
        Lex.Trichotomy(report[i].updated, now);
      }
    }
  }
}

=== FILE: stable_sort.dfy ===
/**
 * Python's `list.sort(key=..., reverse=...)`: a stable sort on a string key.
 * With `reverse=True` the order is descending and elements with equal keys
 * still keep their original relative order.
 */
module StableSort {
  import Lex

  /** Whether an element keyed `a` may stand before one keyed `b`. */
  predicate InOrder(descending: bool, a: string, b: string)
  {
    if descending then Lex.LessEq(b, a) else Lex.LessEq(a, b)
  }

  lemma InOrderReflexive(descending: bool, a: string)
    ensures InOrder(descending, a, a)
  {
    Lex.Reflexive(a);
  }

  lemma InOrderTotal(descending: bool, a: string, b: string)
    ensures InOrder(descending, a, b) || InOrder(descending, b, a)
  {
    Lex.Total(a, b);
  }

  lemma InOrderTransitive(descending: bool, a: string, b: string, c: string)
    requires InOrder(descending, a, b) && InOrder(descending, b, c)
    ensures InOrder(descending, a, c)
  {
    if descending {
      Lex.Transitive(c, b, a);
    } else {
      Lex.Transitive(a, b, c);
    }
  }

  /** Every element's key may stand before the key of every later element. */
  ghost predicate SortedBy<T>(s: seq<T>, key: T -> string, descending: bool)
  {
    forall i, j :: 0 <= i < j < |s| ==> InOrder(descending, key(s[i]), key(s[j]))
  }

  /** The elements of `s` whose key is `k`, in their order in `s`. */
  function WithKey<T>(s: seq<T>, key: T -> string, k: string): (r: seq<T>)
    ensures |r| <= |s|
  {
    if |s| == 0 then []
    else (if key(s[0]) == k then [s[0]] else []) + WithKey(s[1..], key, k)
  }

  /**
   * Places `x` before the first element of `t` whose key it may precede, so
   * that `x`, which came earlier in the input, stays ahead of equal keys.
   */
  function Insert<T>(x: T, t: seq<T>, key: T -> string, descending: bool): (r: seq<T>)
    ensures multiset(r) == multiset(t) + multiset{x}
  {
    if |t| == 0 then [x]
    else if InOrder(descending, key(x), key(t[0])) then [x] + t
    else
      assert t == [t[0]] + t[1..];
      [t[0]] + Insert(x, t[1..], key, descending)
  }

  /** Insertion sort, consuming the input from its end. */
  function SortBy<T>(s: seq<T>, key: T -> string, descending: bool): (r: seq<T>)
    ensures multiset(r) == multiset(s)
  {
    if |s| == 0 then []
    else
      assert s == [s[0]] + s[1..];
      Insert(s[0], SortBy(s[1..], key, descending), key, descending)
  }

  lemma {:induction false} InsertSorted<T>(x: T, t: seq<T>, key: T -> string, descending: bool)
    requires SortedBy(t, key, descending)
    ensures SortedBy(Insert(x, t, key, descending), key, descending)
    decreases |t|
  {
    if |t| == 0 {
    } else if InOrder(descending, key(x), key(t[0])) {
      assert Insert(x, t, key, descending) == [x] + t;
      ConsSorted(x, t, key, descending);
    } else {
      InsertSorted(x, t[1..], key, descending);
      HeadBeforeInsert(x, t, key, descending);
    }
  }

  /** The head of a sorted `t` that `x` may not precede stays in front of the rest with `x` inserted. */
  lemma HeadBeforeInsert<T>(x: T, t: seq<T>, key: T -> string, descending: bool)
    requires SortedBy(t, key, descending)
    requires |t| > 0 && !InOrder(descending, key(x), key(t[0]))
    requires SortedBy(Insert(x, t[1..], key, descending), key, descending)
    ensures SortedBy([t[0]] + Insert(x, t[1..], key, descending), key, descending)
  {
    var rest := Insert(x, t[1..], key, descending);
    InOrderTotal(descending, key(x), key(t[0]));
    var r := [t[0]] + rest;
    forall i, j | 0 <= i < j < |r|
      ensures InOrder(descending, key(r[i]), key(r[j]))
    {
      if i == 0 {
        var y := rest[j - 1];
        assert y in multiset(rest);
        if y != x {
          assert y in multiset(t[1..]);
          var k :| 0 <= k < |t[1..]| && t[1..][k] == y;
          assert t[k + 1] == y;
        }
      }
    }
  }

  /** An element in order with the head of a sorted sequence can go in front of it. */
  lemma ConsSorted<T>(x: T, t: seq<T>, key: T -> string, descending: bool)
    requires SortedBy(t, key, descending)
    requires |t| > 0 && InOrder(descending, key(x), key(t[0]))
    ensures SortedBy([x] + t, key, descending)
  {
    var r := [x] + t;
    forall i, j | 0 <= i < j < |r|
      ensures InOrder(descending, key(r[i]), key(r[j]))
    {
      if i == 0 && j > 1 {
        InOrderTransitive(descending, key(x), key(t[0]), key(t[j - 1]));
      }
    }
  }

  lemma {:induction false} InsertWithKey<T>(x: T, t: seq<T>, key: T -> string, descending: bool, k: string)
    ensures WithKey(Insert(x, t, key, descending), key, k)
         == (if key(x) == k then [x] else []) + WithKey(t, key, k)
    decreases |t|
  {
    if |t| == 0 {
    } else if InOrder(descending, key(x), key(t[0])) {
      assert ([x] + t)[1..] == t;
    } else {
      InOrderReflexive(descending, key(x));
      InsertWithKey(x, t[1..], key, descending, k);
      var r := [t[0]] + Insert(x, t[1..], key, descending);
      assert r[1..] == Insert(x, t[1..], key, descending);
    }
  }

  /**
   * SortBy is the stable sort: its result is a permutation of the input,
   * ordered by key, and for every key the elements carrying it appear in the
   * same order as in the input.
   */
  lemma {:induction false} SortByIsStableSort<T>(s: seq<T>, key: T -> string, descending: bool)
    ensures multiset(SortBy(s, key, descending)) == multiset(s)
    ensures SortedBy(SortBy(s, key, descending), key, descending)
    ensures forall k :: WithKey(SortBy(s, key, descending), key, k) == WithKey(s, key, k)
    decreases |s|
  {
    if |s| > 0 {
      var t := SortBy(s[1..], key, descending);
      SortByIsStableSort(s[1..], key, descending);
      InsertSorted(s[0], t, key, descending);
      forall k
        ensures WithKey(SortBy(s, key, descending), key, k) == WithKey(s, key, k)
      {
        InsertWithKey(s[0], t, key, descending, k);
      }
    }
  }
}

=== FILE: wrappers.dfy ===
/** Optional values and results, shared by every module of the model. */
module Wrappers {

  /** An optional value: a missing dictionary key or a Python `None`. */
  datatype Option<+T> = None | Some(value: T)

  /** The value of an operation, or the exception the source raises instead. */
  datatype Result<+R, +E> = Success(value: R) | Failure(error: E)
}
